=== FILE: README.md ===
# Norwegian bank registry, in Dafny

A model of the core of `norwegianbanks`, a PHP library. The library reads the
Norwegian IBAN/BIC table, a spreadsheet of account-number prefixes with bank
codes and bank names. From it, the library builds two tables:

- banks, keyed by bank code;
- prefixes, each mapped to a bank code.

On these tables it answers four questions:

- which bank code a four-digit prefix belongs to;
- which bank an account number belongs to;
- how an account number is written in the 4-2-5 grouping;
- whether an account number is valid (eleven digits, MOD 11 check digit, and optionally a known prefix).

Modules, one per concern of the source:

- `PhpStrings`: the PHP string primitives the code depends on. These are `preg_replace('/[^0-9]/', '', s)` (`OnlyDigits`), clamping `substr` (`Substr`, `SubstrFrom`), and the header test `/^\d{4}$/` (`MatchesFourDigits`, where `$` also matches before a final newline).
- `PhpArrays`: a PHP associative array, as an insertion-ordered map. `Put` replaces the value of an existing key and keeps the key where it was.
- `NorwegianBank`: the bank record, its constructor and `addPrefix`.
- `Checksum`: the check-digit computation of `validateAccountNumber`. It is written as the source's loop (`CheckAccountDigits`) and related to the textbook MOD 11 test with weights 5,4,3,2,7,6,5,4,3,2,1 (`CheckDigitIsMod11`).
- `Registry`: the row loop of `processData` and the invariant linking the two tables.
  - `Step` is one iteration and `Fold` the whole loop; `ProcessRows`/`FoldFrom` are the loop as a method.
  - The lemmas compare the fold's result with definitions stated over the rows alone: first-seen order of the codes and prefixes, the prefixes listed under each code, the first and last row for a key.
- `NorwegianBanks`: the public queries over a registry snapshot: `getBankCodeByPrefix`, `getBankByAccountNumber`, `getFormattedAccountNumber`, `validateAccountNumber`, `getAllPrefixes`, `getAllBanks`.
- `SourceRefresh`: the refresh decision of `downloadData`. The clock, the local file and the HTTP response are parameters:
  - `now` is the clock read when deciding;
  - `at` is the clock when the file is written or touched;
  - the file is `Missing` or `Present(mtime, bytes)`.
- `SampleTable`: the repository's own test cases, proved of a table that holds the three banks they use, after a header row.

The spreadsheet reaches the model already decoded. It is a sequence of `Row(prefix, bankCode, bankName)`, where an empty bank-code cell is `None`.

## Model

| member | source | states |
|---|---|---|
| NorwegianBank.NewBank | src/NorwegianBank.php:12-17 | the constructor stores code, name and prefix list as given; the prefix list defaults to empty |
| NorwegianBank.AddPrefix | src/NorwegianBank.php:18-20 | appends the prefix at the end; code, name and the earlier prefixes are unchanged |
| NorwegianBank.AddPrefixKeepsDuplicates | src/NorwegianBank.php:18-20 | there is no de-duplication: adding a prefix the bank already lists raises its count by one |
| NorwegianBank.AddPrefixesAppends | src/NorwegianBank.php:18-20 | successive `addPrefix` calls leave exactly the added prefixes, in call order, after the original ones |
| PhpArrays.OrderedMap.Put | src/NorwegianBanks.php:84-89 | assignment to a key: the key is mapped to the new value and the key set grows by exactly that key; a new key goes last and an existing key keeps its place; a valid array stays valid (keys unique and exactly the mapped ones) |
| PhpArrays.PutKeepsOthers | src/NorwegianBanks.php:84-89 | assignment to one key leaves the value of every other key unchanged |
| PhpArrays.Empty | src/NorwegianBanks.php:65-66 | the empty PHP array has no keys and satisfies the ordered-map invariant |
| PhpStrings.OnlyDigits | src/NorwegianBanks.php:139 | the result is all digits, no longer than the input, and equal to the input when the input is all digits |
| PhpStrings.OnlyDigitsKeepsDigits | src/NorwegianBanks.php:139 | every digit is kept exactly as often as it occurs, and every other character is dropped |
| PhpStrings.OnlyDigitsAppend | src/NorwegianBanks.php:152 | stripping distributes over concatenation |
| PhpStrings.Substr | src/NorwegianBanks.php:140 | `substr` clamps at the end of the string: the length is min(len, rest) and the characters are those of the input |
| PhpStrings.SubstrFrom | src/NorwegianBanks.php:140 | `substr(s, 6)`: everything from the offset on, and the empty string past the end |
| PhpStrings.SubstrPieces | src/NorwegianBanks.php:140 | the three clamped pieces as slices, for strings of at least six, four to five, and under four characters |
| PhpStrings.SubstrPiecesJoin | src/NorwegianBanks.php:140 | the three clamped pieces 0..4, 4..6 and 6.. join back to the whole string |
| Checksum.ExpectedCheckDigit | src/NorwegianBanks.php:165-171 | the expected digit lies in 0..10 and completes the payload sum to a multiple of 11; it is 0 exactly when the remainder is 0, and 10 exactly when the remainder is 1 |
| Checksum.CheckDigitIsMod11 | src/NorwegianBanks.php:158-175 | the source's test passes if and only if the eleven-digit MOD 11 sum (check digit weight 1) is divisible by 11 |
| Checksum.RemainderOneRejected | src/NorwegianBanks.php:165-175 | a payload with remainder 1 calls for digit 10, so every account with that payload is rejected |
| Checksum.Mod11SumClosedForm | src/NorwegianBanks.php:151-163 | the MOD 11 sum written out with the weights 5,4,3,2,7,6,5,4,3,2,1 |
| Checksum.CheckAccountDigits | src/NorwegianBanks.php:158-175 | the loop over the ten payload digits returns true exactly when the MOD 11 sum is divisible by 11 |
| Registry.EffectiveCode | src/NorwegianBanks.php:81-83 | a row with an empty bank-code cell is filed under "n/a", any other row under its own code |
| Registry.EmptyRegistry | src/NorwegianBanks.php:65-66 | the empty tables satisfy the invariant linking banks and prefixes |
| Registry.StepBanks | src/NorwegianBanks.php:84-88 | one iteration on the bank table: a new code gets a bank with the row's code, name and prefix as its one prefix; a known code gets the prefix appended; every other bank is unchanged and no other code appears |
| Registry.StepPreservesWellFormed | src/NorwegianBanks.php:81-89 | one iteration keeps the invariant: every bank carries its own code; every prefix maps to a bank that lists it; every listed prefix is mapped |
| Registry.FoldWellFormed | src/NorwegianBanks.php:80-90 | the invariant holds after any number of rows |
| Registry.FirstSeenOrder | src/NorwegianBanks.php:84-89 | the reference order used for the table keys: of two listed elements, the earlier one first appears earlier in the input |
| Registry.FoldKeys | src/NorwegianBanks.php:80-90 | banks are ordered by the first appearance of their code, prefixes by their first appearance |
| Registry.FoldDomains | src/NorwegianBanks.php:80-90 | the codes with a bank are exactly the codes of the rows, the mapped prefixes exactly the prefixes of the rows |
| Registry.FoldBankPrefixes | src/NorwegianBanks.php:84-88 | each bank lists the prefixes of all rows with its code, in row order, duplicates included |
| Registry.FoldBankNames | src/NorwegianBanks.php:84-85 | each bank keeps the name of the first row with its code |
| Registry.FoldPrefixMap | src/NorwegianBanks.php:89 | each prefix maps to the code of the last row that carries it |
| Registry.PrefixRoundTrip | src/NorwegianBanks.php:84-89 | when no prefix appears under two codes, every prefix a bank lists resolves back to that bank's code |
| Registry.DuplicatePrefixBreaksRoundTrip | src/NorwegianBanks.php:84-89 | for any rows i < j with the same prefix and different codes, j being the prefix's last row: the prefix stays in row i's bank's list but resolves to row j's code |
| Registry.InconsistentPrefixesBreakRoundTrip | src/NorwegianBanks.php:84-89 | when some prefix appears under two codes, some bank lists a prefix that does not resolve back to it |
| Registry.RoundTripIffConsistent | src/NorwegianBanks.php:84-89 | every prefix a bank lists resolves back to that bank's code if and only if no prefix appears under two codes |
| Registry.HeaderDetection | src/NorwegianBanks.php:73-78 | if cell [0][0] matches four digits, row 0 is data: its prefix is mapped and its code has a bank; otherwise row 0 is skipped: its first cell is mapped, and its code cell has a bank, exactly when a later row carries the same prefix, respectively the same code |
| Registry.ProcessRows | src/NorwegianBanks.php:64-90 | the loop from the start key yields the fold of the data rows, and that result satisfies the invariant |
| Registry.FoldFrom | src/NorwegianBanks.php:80-90 | iterating from index `lo`, one step per row, gives the fold of `rows[lo..]` |
| NorwegianBanks.GetBankCodeByPrefix | src/NorwegianBanks.php:109-116 | returns null exactly when the prefix is not a key; otherwise returns its code, whose bank (in a well-formed registry) lists the prefix |
| NorwegianBanks.GetBankByAccountNumber | src/NorwegianBanks.php:122-130 | looks up the first four raw characters; in a well-formed registry, null exactly when they are not a mapped prefix, otherwise the bank with that code, which lists them |
| NorwegianBanks.GetFormattedAccountNumber | src/NorwegianBanks.php:137-141 | the digits grouped 4-2-rest with the delimiter twice (short inputs leave empty groups); with a digit-free delimiter, stripping the result gives the input's digits |
| NorwegianBanks.ValidateAccountNumber | src/NorwegianBanks.php:148-182 | false unless there are exactly eleven digits; true exactly when the MOD 11 test passes and, if prefix checking is on, the first four digits are a mapped prefix |
| NorwegianBanks.FormattingIsTransparent | src/NorwegianBanks.php:137-182 | formatting with a digit-free delimiter changes neither validation nor a later reformat |
| NorwegianBanks.GetAllPrefixes | src/NorwegianBanks.php:187-190 | lists every mapped prefix once, and nothing else |
| NorwegianBanks.AllPrefixesOfBuiltTable | src/NorwegianBanks.php:187-190 | for a built table, the listing is the data rows' prefixes in order of first appearance |
| SourceRefresh.PlanRequest | src/NorwegianBanks.php:25-37 | missing file: plain GET; file at least `ttl` seconds old (boundary included): GET with If-Modified-Since set to its mtime; newer file: no request |
| SourceRefresh.ResponseEffect | src/NorwegianBanks.php:43-47 | 200 with a non-empty body writes the file, 304 touches it, anything else leaves it alone |
| SourceRefresh.ApplyEffect | src/NorwegianBanks.php:44-46 | a write stores the body with the new mtime; a touch keeps the content of an existing file, creates an empty one if missing, and sets the new mtime |
| SourceRefresh.Refresh | src/NorwegianBanks.php:22-48 | no request and no change for a fresh copy; otherwise 200 with a body writes it with the new mtime, 304 keeps the content (empty for a file that was missing) with the new mtime, and anything else changes nothing |
| SourceRefresh.DownloadData | src/NorwegianBanks.php:25-47 | with the fixed TTL of 86400 seconds: no request exactly for a copy younger than a day, a plain GET exactly for a missing copy, and the conditional GET carries the copy's mtime |
| SourceRefresh.StalenessIsMonotone | src/NorwegianBanks.php:25-27 | once a copy is stale it stays stale as the clock advances |
| SourceRefresh.RefreshRestartsClock | src/NorwegianBanks.php:25-47 | after a write or touch, no request is made for `ttl` seconds |
| SampleTable.SampleTableContents | tests/NorwegianBanksTest.php:43-51 | the sample sheet maps 1594, 6105 and 3000 to DNBANOKK, NDEANOKK and SPSONO22, and maps neither 0000 nor 1234 |
| SampleTable.GroupedAccount | src/NorwegianBanks.php:122-182 | an account written 4-2-5 with separators, whose digits pass MOD 11, validates and resolves exactly when its first group is a mapped prefix |
| SampleTable.DnbAccount | tests/NorwegianBanksTest.php:53-72 | "1594 22 87248" validates and resolves to DNBANOKK, and its first four characters look up DNBANOKK |
| SampleTable.NordeaAccount | tests/NorwegianBanksTest.php:53-72 | "61050659274" validates and resolves to NDEANOKK, and its first four characters look up NDEANOKK |
| SampleTable.SparebankenAccount | tests/NorwegianBanksTest.php:53-72 | "3000.27.79419" validates and resolves to SPSONO22, and its first four characters look up SPSONO22 |
| SampleTable.UnknownAccount | tests/NorwegianBanksTest.php:49-75 | "1234.56.78903" passes the checksum but fails validation and resolves to no bank; prefix 0000 has no code |
| SampleTable.ReformatExample | tests/NorwegianBanksTest.php:24-26 | the spaced form reformats to the dotted one |
| SampleTable.FormatExpectations | tests/NorwegianBanksTest.php:35-41 | "12345678903" formats as "1234.56.78903" by default and as "1234 56 78903" with a space delimiter |
| SampleTable.LookupExpectations | tests/NorwegianBanksTest.php:43-77 | in any well-formed table with the sample entries: the three accounts' first four characters look up their codes, 0000 looks up nothing, the three accounts resolve to their banks and validate, and the unknown account resolves to nothing and fails validation though its checksum passes |
| SampleTable.SampleTableMeetsTestSuite | tests/NorwegianBanksTest.php:35-77 | the table built from the sample sheet meets every expectation of the instance-method tests: the two formatting assertions, the four prefix lookups, the four account lookups and the four validations, and that the unknown account passes the checksum-only validation |

## Left out

- HTTP (Guzzle, src/NorwegianBanks.php:39-41): the response is a parameter. Guzzle throws on 4xx/5xx answers; here those statuses simply change nothing.
- The `If-Modified-Since` header text (`gmdate`, line 31): the request carries the raw mtime.
- File-system calls (`file_exists`, `filemtime`, `file_put_contents` with `LOCK_EX`, `touch`, `sys_get_temp_dir`) become the `SourceFile` value and the `now`/`at` parameters.
- The per-mtime cache directory and `FileCache` (lines 53-63 and 92-101) are not modelled. A cache hit returns tables stored by an earlier run of the same loop.
- Spreadsheet decoding (PhpSpreadsheet, lines 67-72): the model starts from decoded rows. Cells are taken to be strings. An empty prefix or name cell and numeric cell values are not modelled; only the empty bank-code cell is (it becomes "n/a").
- PHP's integer-key coercion of numeric string keys such as "1594", and the `strval` in `getAllPrefixes`: keys stay strings here. For decimal prefixes without a leading zero, coercion followed by `strval` gives back the same string.
- NorwegianBanks.GetAllBanks: returns the bank table itself; no contract beyond that.
- NorwegianBanks.GetBankByAccountNumber: PHP strings are byte strings, and `substr($account, 0, 4)` takes four bytes where the model takes four characters. The two agree whenever the first four characters are ASCII, and so for every table whose prefixes are ASCII. For a non-ASCII account such as "é1234567890" PHP looks up the bytes "\xC3\xA912" where the model looks up "é123".
- Shared mutable banks: `NorwegianBank` is a PHP class with public mutable fields, and `getBankByAccountNumber` and `getAllBanks` (src/NorwegianBanks.php:129, 197) return the registry's own objects. A caller can therefore change the registry, e.g. `getAllBanks()['DNBANOKK']->addPrefix('9999')` leaves a bank listing a prefix that `getBankCodeByPrefix` does not know. The model's banks are immutable values. `Registry.WellFormed` and the lookup contracts describe the registry as built, before any caller mutates a returned bank.
- NorwegianBanksStatic, called by the tests, is not part of this model.
- Integer width: the payload sum is at most 9 × 41 and timestamps are plain integers, so 64-bit overflow does not arise.
- The constructor's call order (`__construct` → `processData` → `downloadData`) is not modelled as one operation. The refresh decision and the table build are separate operations.

## Notes

- Every prefix a bank lists resolves back to that bank if and only if no prefix appears in the sheet under two different bank codes (`Registry.RoundTripIffConsistent`). The code overwrites `prefixToBankCode[prefix]` while leaving the prefix in the earlier bank's list (`Registry.DuplicatePrefixBreaksRoundTrip`). The model follows the code.
- `getBankByAccountNumber` uses the first four raw characters, without stripping. `validateAccountNumber` calls it on the stripped digits.
- The header test follows PCRE as written: `"1234\n"` counts as a four-digit prefix.

=== FILE: checksum.dfy ===
/**
  The Norwegian account-number check digit: a weighted sum of the ten
  payload digits taken modulo 11, with a zero remainder giving check digit 0.
*/
module Checksum {
  import opened PhpStrings

  /** Weights of the ten payload digits, most significant first. */
  const Weights: seq<int> := [5, 4, 3, 2, 7, 6, 5, 4, 3, 2]

  /** Number of digits in a Norwegian account number. */
  const AccountLength: nat := 11

  /** The weights of the textbook MOD 11 test over all eleven digits: `Weights`, then 1 for the check digit. */
  const Mod11Weights: seq<int> := [5, 4, 3, 2, 7, 6, 5, 4, 3, 2, 1]

  /** `(int)` of a one-character digit string. */
  function DigitValue(c: char): (v: int)
    requires IsDigit(c)
    ensures 0 <= v <= 9
  {
    c as int - '0' as int
  }

  /** Sum of `DigitValue(d[i]) * w[i]` over the first `|w|` characters of `d`. */
  function WeightedSum(d: string, w: seq<int>): int
    requires |w| <= |d| && AllDigits(d)
  {
    if |w| == 0 then 0
    else WeightedSum(d, w[..|w| - 1]) + DigitValue(d[|w| - 1]) * w[|w| - 1]
  }

  /** The payload sum of an eleven-digit account number. */
  function PayloadSum(d: string): int
    requires |d| == AccountLength && AllDigits(d)
  {
    WeightedSum(d, Weights)
  }

  /**
    The check digit the payload calls for: 0 when the sum is divisible by 11,
    otherwise 11 minus the remainder. A remainder of 1 calls for 10, which no
    single digit can be.
  */
  function ExpectedCheckDigit(d: string): (e: int)
    requires |d| == AccountLength && AllDigits(d)
    ensures 0 <= e <= 10
    ensures (PayloadSum(d) + e) % 11 == 0
    ensures e == 0 <==> PayloadSum(d) % 11 == 0
    ensures e == 10 <==> PayloadSum(d) % 11 == 1
  {
    var remainder := PayloadSum(d) % 11;
    if remainder == 0 then 0 else 11 - remainder
  }

  /** The declared (last) digit equals the expected one. */
  predicate HasValidCheckDigit(d: string)
    requires |d| == AccountLength && AllDigits(d)
  {
    DigitValue(d[AccountLength - 1]) == ExpectedCheckDigit(d)
  }

  /**
    The source's test (expected digit, zero rule, comparison) is exactly the
    textbook MOD 11 test: the weighted sum of all eleven digits, the check
    digit weighing 1, is divisible by 11.
  */
  lemma CheckDigitIsMod11(d: string)
    requires |d| == AccountLength && AllDigits(d)
    ensures HasValidCheckDigit(d) <==> WeightedSum(d, Mod11Weights) % 11 == 0
  {
    assert Mod11Weights[..10] == Weights;
    assert WeightedSum(d, Mod11Weights) == PayloadSum(d) + DigitValue(d[10]);
    CheckDigitRule(PayloadSum(d), DigitValue(d[10]));
  }

  /** A digit `c` completes `s` to a multiple of 11 exactly when it is the check digit `s` calls for. */
  lemma CheckDigitRule(s: int, c: int)
    requires 0 <= c <= 9
    ensures (s + c) % 11 == 0 <==> c == (if s % 11 == 0 then 0 else 11 - s % 11)
  {
    var r := s % 11;
    assert s == 11 * (s / 11) + r;
    assert (s + c) % 11 == (r + c) % 11;
  }

  /** When the payload sum leaves remainder 1, no declared digit is accepted. */
  lemma RemainderOneRejected(d: string)
    requires |d| == AccountLength && AllDigits(d)
    requires PayloadSum(d) % 11 == 1
    ensures !HasValidCheckDigit(d)
  {
  }

  lemma WeightedSumStep(d: string, w: seq<int>, i: nat)
    requires i < |w| <= |d| && AllDigits(d)
    ensures WeightedSum(d, w[..i + 1]) == WeightedSum(d, w[..i]) + DigitValue(d[i]) * w[i]
  {
    assert w[..i + 1][..i] == w[..i];
  }

  /** The MOD 11 sum written out digit by digit. */
  lemma Mod11SumClosedForm(d: string)
    requires |d| == AccountLength && AllDigits(d)
    ensures WeightedSum(d, Mod11Weights) ==
      5 * DigitValue(d[0]) + 4 * DigitValue(d[1]) + 3 * DigitValue(d[2]) + 2 * DigitValue(d[3])
      + 7 * DigitValue(d[4]) + 6 * DigitValue(d[5]) + 5 * DigitValue(d[6]) + 4 * DigitValue(d[7])
      + 3 * DigitValue(d[8]) + 2 * DigitValue(d[9]) + DigitValue(d[10])
  {
    WeightedSumUnrolled(d, Mod11Weights);
  }

  /** An eleven-weight sum as eleven explicit terms. */
  lemma WeightedSumUnrolled(d: string, w: seq<int>)
    requires |w| == 11 <= |d| && AllDigits(d)
    ensures WeightedSum(d, w) == DigitValue(d[0]) * w[0] + DigitValue(d[1]) * w[1] + DigitValue(d[2]) * w[2] + DigitValue(d[3]) * w[3] + DigitValue(d[4]) * w[4] + DigitValue(d[5]) * w[5] + DigitValue(d[6]) * w[6] + DigitValue(d[7]) * w[7] + DigitValue(d[8]) * w[8] + DigitValue(d[9]) * w[9] + DigitValue(d[10]) * w[10]
  {
    assert w[..0] == [];
    WeightedSumStep(d, w, 0);
    WeightedSumStep(d, w, 1);
    WeightedSumStep(d, w, 2);
    WeightedSumStep(d, w, 3);
    WeightedSumStep(d, w, 4);
    WeightedSumStep(d, w, 5);
    WeightedSumStep(d, w, 6);
    WeightedSumStep(d, w, 7);
    WeightedSumStep(d, w, 8);
    WeightedSumStep(d, w, 9);
    WeightedSumStep(d, w, 10);
    assert w[..11] == w;
  }

  /**
    The loop of the validator: accumulates the weighted payload sum digit by
    digit, derives the expected check digit and compares the declared one.
  */
  method CheckAccountDigits(d: string) returns (ok: bool)
    requires |d| == AccountLength && AllDigits(d)
    ensures ok <==> WeightedSum(d, Mod11Weights) % 11 == 0
  {
    var checkDigit := DigitValue(d[10]);
    var sum := 0;
    var i := 0;
    while i < 10
      invariant 0 <= i <= 10
      invariant sum == WeightedSum(d, Weights[..i])
    {
      WeightedSumStep(d, Weights, i);
      sum := sum + DigitValue(d[i]) * Weights[i];
      i := i + 1;
    }
    assert Weights[..10] == Weights;
    var remainder := sum % 11;
    var expected := if remainder == 0 then remainder else 11 - remainder;
    CheckDigitIsMod11(d);
    ok := checkDigit == expected;
  }
}

=== FILE: norwegian_bank.dfy ===
/**
  One bank of the registry: its code (a SWIFT-like identifier or "n/a"), its
  name and the account-number prefixes assigned to it, in the order the
  table lists them. PHP's class has public mutable fields and `addPrefix`
  changes the object in place; here a bank is a value and `AddPrefix`
  returns the changed copy.
*/
module NorwegianBank {

  datatype Bank = Bank(bankCode: string, bankName: string, prefixes: seq<string>)

  /** The constructor: every field stored as given, prefixes empty unless supplied. */
  function NewBank(bankCode: string, bankName: string, prefixes: seq<string> := []): (b: Bank)
    ensures b.bankCode == bankCode && b.bankName == bankName && b.prefixes == prefixes
  {
    Bank(bankCode, bankName, prefixes)
  }

  /**
    `addPrefix`: appends the prefix at the end, without looking for an
    earlier copy of it; code, name and the earlier prefixes are untouched.
  */
  function AddPrefix(b: Bank, prefix: string): (r: Bank)
    ensures r.bankCode == b.bankCode && r.bankName == b.bankName
    ensures |r.prefixes| == |b.prefixes| + 1
    ensures r.prefixes[..|b.prefixes|] == b.prefixes
    ensures r.prefixes[|b.prefixes|] == prefix
  {
    b.(prefixes := b.prefixes + [prefix])
  }

  /** No de-duplication: adding a prefix the bank already lists gives it one more copy. */
  lemma AddPrefixKeepsDuplicates(b: Bank, prefix: string)
    ensures multiset(AddPrefix(b, prefix).prefixes)[prefix] == multiset(b.prefixes)[prefix] + 1
  {
    assert AddPrefix(b, prefix).prefixes == b.prefixes + [prefix];
  }

  /** Adding prefixes one by one, in order. */
  function AddPrefixes(b: Bank, ps: seq<string>): Bank
    decreases |ps|
  {
    if |ps| == 0 then b else AddPrefixes(AddPrefix(b, ps[0]), ps[1..])
  }

  /** A bank built by successive `addPrefix` calls lists exactly the added prefixes, in call order. */
  lemma {:induction false} AddPrefixesAppends(b: Bank, ps: seq<string>)
    ensures AddPrefixes(b, ps) == b.(prefixes := b.prefixes + ps)
    decreases |ps|
  {
    if |ps| == 0 {
      assert b.prefixes + ps == b.prefixes;
    } else {
      AddPrefixesAppends(AddPrefix(b, ps[0]), ps[1..]);
      assert b.prefixes + [ps[0]] + ps[1..] == b.prefixes + ps;
    }
  }
}

=== FILE: norwegian_banks.dfy ===
/**
  The query surface of the registry: lookups by prefix and by account
  number, the account-number formatter, the validator and the listings.
  Every operation is a pure read of the registry as built. In PHP the bank
  objects handed out are the registry's own, and a caller that mutates one
  changes the registry; the model's banks are values, so the model does not
  follow that.
*/
module NorwegianBanks {
  import opened Nullable
  import opened PhpStrings
  import opened PhpArrays
  import opened NorwegianBank
  import opened Checksum
  import opened Registry

  /** `getBankCodeByPrefix`: an exact key lookup, `None` for an absent prefix. */
  function GetBankCodeByPrefix(reg: Registry, prefix: string): (r: Option<string>)
    ensures r.None? <==> prefix !in reg.prefixToBankCode.values
    ensures r.Some? ==> r.value == reg.prefixToBankCode.values[prefix]
    ensures WellFormed(reg) && r.Some? ==>
      r.value in reg.banks.values && prefix in reg.banks.values[r.value].prefixes
  {
    if prefix in reg.prefixToBankCode.values then Some(reg.prefixToBankCode.values[prefix]) else None
  }

  /**
    `getBankByAccountNumber`: looks up the first four RAW characters of the
    account (no separator stripping). A code without a bank reads as `null`
    in PHP (an undefined index), which cannot happen in a well-formed registry.
  */
  function GetBankByAccountNumber(reg: Registry, account: string): (r: Option<Bank>)
    ensures r.Some? ==>
      && Substr(account, 0, 4) in reg.prefixToBankCode.values
      && reg.prefixToBankCode.values[Substr(account, 0, 4)] in reg.banks.values
      && r.value == reg.banks.values[reg.prefixToBankCode.values[Substr(account, 0, 4)]]
    ensures WellFormed(reg) ==> (r.None? <==> Substr(account, 0, 4) !in reg.prefixToBankCode.values)
    ensures WellFormed(reg) && r.Some? ==>
      && r.value.bankCode == reg.prefixToBankCode.values[Substr(account, 0, 4)]
      && Substr(account, 0, 4) in r.value.prefixes
  {
    var prefix := Substr(account, 0, 4);
    match GetBankCodeByPrefix(reg, prefix)
    case None => None
    case Some(code) => if code in reg.banks.values then Some(reg.banks.values[code]) else None
  }

  /**
    `getFormattedAccountNumber`: the digits of the input grouped 4-2-rest
    with the delimiter twice, whatever the number of digits; short inputs
    leave empty groups. With a digit-free delimiter, stripping the result
    gives back the input's digits.
  */
  function GetFormattedAccountNumber(account: string, delimiter: string := "."): (r: string)
    ensures |r| == |OnlyDigits(account)| + 2 * |delimiter|
    ensures var d := OnlyDigits(account);
      && (|d| >= 6 ==> r == d[..4] + delimiter + d[4..6] + delimiter + d[6..])
      && (4 <= |d| < 6 ==> r == d[..4] + delimiter + d[4..] + delimiter)
      && (|d| < 4 ==> r == d + delimiter + delimiter)
    ensures OnlyDigits(delimiter) == [] ==> OnlyDigits(r) == OnlyDigits(account)
  {
    var d := OnlyDigits(account);
    var first := Substr(d, 0, 4);
    var second := Substr(d, 4, 2);
    var rest := SubstrFrom(d, 6);
    FormattedGroups(d, delimiter);
    GroupsStrip(d, delimiter);
    first + delimiter + second + delimiter + rest
  }

  /** The formatter's three groups with the delimiter between them, as plain slices. */
  lemma FormattedGroups(d: string, delimiter: string)
    ensures var r := Substr(d, 0, 4) + delimiter + Substr(d, 4, 2) + delimiter + SubstrFrom(d, 6);
      && (|d| >= 6 ==> r == d[..4] + delimiter + d[4..6] + delimiter + d[6..])
      && (4 <= |d| < 6 ==> r == d[..4] + delimiter + d[4..] + delimiter)
      && (|d| < 4 ==> r == d + delimiter + delimiter)
  {
    SubstrPieces(d);
  }

  /** Stripping the grouped digits removes exactly the (digit-free) delimiters. */
  lemma GroupsStrip(d: string, delimiter: string)
    requires AllDigits(d)
    ensures OnlyDigits(delimiter) == [] ==>
      OnlyDigits(Substr(d, 0, 4) + delimiter + Substr(d, 4, 2) + delimiter + SubstrFrom(d, 6)) == d
  {
    if OnlyDigits(delimiter) == [] {
      var first := Substr(d, 0, 4);
      var second := Substr(d, 4, 2);
      var rest := SubstrFrom(d, 6);
      assert AllDigits(first) && AllDigits(second) && AllDigits(rest);
      var x1 := first + delimiter;
      OnlyDigitsAppend(first, delimiter);
      assert OnlyDigits(x1) == first;
      var x2 := x1 + second;
      OnlyDigitsAppend(x1, second);
      assert OnlyDigits(x2) == first + second;
      var x3 := x2 + delimiter;
      OnlyDigitsAppend(x2, delimiter);
      assert OnlyDigits(x3) == first + second;
      OnlyDigitsAppend(x3, rest);
      assert OnlyDigits(x3 + rest) == first + second + rest;
      SubstrPiecesJoin(d);
    }
  }

  /**
    `validateAccountNumber`: exactly eleven digits after stripping, a check
    digit that passes the MOD 11 test, and, when `validateBankPrefix` is set,
    a bank for the first four digits.
  */
  function ValidateAccountNumber(reg: Registry, account: string, validateBankPrefix: bool := true): (r: bool)
    ensures |OnlyDigits(account)| != AccountLength ==> !r
    ensures r <==>
      && |OnlyDigits(account)| == AccountLength
      && WeightedSum(OnlyDigits(account), Mod11Weights) % 11 == 0
      && (validateBankPrefix ==> GetBankByAccountNumber(reg, OnlyDigits(account)[..4]).Some?)
    ensures WellFormed(reg) ==> (r <==>
      && |OnlyDigits(account)| == AccountLength
      && WeightedSum(OnlyDigits(account), Mod11Weights) % 11 == 0
      && (validateBankPrefix ==> OnlyDigits(account)[..4] in reg.prefixToBankCode.values))
  {
    var d := OnlyDigits(account);
    if |d| != AccountLength then false
    else
      CheckDigitIsMod11(d);
      assert Substr(d, 0, 4) == d[..4];
      assert Substr(d[..4], 0, 4) == d[..4];
      if !HasValidCheckDigit(d) then false
      else if !validateBankPrefix then true
      else GetBankByAccountNumber(reg, Substr(d, 0, 4)).Some?
  }

  /** `getAllPrefixes`: every mapped prefix once, in insertion order. */
  function GetAllPrefixes(reg: Registry): (r: seq<string>)
    ensures reg.prefixToBankCode.Valid() ==>
      && (forall p :: p in r <==> p in reg.prefixToBankCode.values)
      && (forall i, j :: 0 <= i < j < |r| ==> r[i] != r[j])
  {
    reg.prefixToBankCode.keys
  }

  /** `getAllBanks`: the bank table itself. */
  function GetAllBanks(reg: Registry): OrderedMap<string, Bank> {
    reg.banks
  }

  /** Formatting with a digit-free delimiter changes neither the validation result nor a later reformat. */
  lemma FormattingIsTransparent(reg: Registry, account: string, delimiter: string, other: string, flag: bool)
    requires OnlyDigits(delimiter) == []
    ensures ValidateAccountNumber(reg, GetFormattedAccountNumber(account, delimiter), flag)
      == ValidateAccountNumber(reg, account, flag)
    ensures GetFormattedAccountNumber(GetFormattedAccountNumber(account, delimiter), other)
      == GetFormattedAccountNumber(account, other)
  {
  }

  /**
    For the registry `processData` builds, the listing holds the prefixes of
    the data rows, each once, in order of first appearance.
  */
  lemma AllPrefixesOfBuiltTable(rows: seq<Row>)
    ensures GetAllPrefixes(BuildTable(rows)) == FirstSeen(Prefixes(DataRows(rows)))
  {
    FoldKeys(DataRows(rows));
  }
}

=== FILE: nullable.dfy ===
/** A value or PHP's `null`: the result of a lookup that can miss, and an empty spreadsheet cell. */
module Nullable {

  datatype Option<T> = None | Some(value: T)
}

=== FILE: php_arrays.dfy ===
/**
  A PHP associative array: a map that remembers the order in which its keys
  were first inserted. Assigning to a key that is already present replaces
  the value and keeps the key where it was.
*/
module PhpArrays {

  datatype OrderedMap<K, V> = OrderedMap(keys: seq<K>, values: map<K, V>) {

    /** Keys are listed once each, and the listed keys are exactly the mapped ones. */
    ghost predicate Valid() {
      && (forall i, j :: 0 <= i < j < |keys| ==> keys[i] != keys[j])
      && values.Keys == (set k | k in keys)
    }

    /** `$a[$k] = $v`. */
    function Put(k: K, v: V): (r: OrderedMap<K, V>)
      ensures Valid() ==> r.Valid()
      ensures r.values.Keys == values.Keys + {k}
      ensures r.values[k] == v
      ensures k in values ==> r.keys == keys
      ensures k !in values ==> r.keys == keys + [k]
    {
      OrderedMap(if k in values then keys else keys + [k], values[k := v])
    }
  }

  /** Assigning to one key leaves every other key's value as it was. */
  lemma PutKeepsOthers<K, V>(a: OrderedMap<K, V>, k: K, v: V, other: K)
    requires other != k && other in a.values
    ensures other in a.Put(k, v).values && a.Put(k, v).values[other] == a.values[other]
  {
  }

  /** `[]`. */
  function Empty<K, V>(): (a: OrderedMap<K, V>)
    ensures a.Valid() && |a.keys| == 0 && |a.values| == 0
  {
    OrderedMap([], map[])
  }
}

=== FILE: php_strings.dfy ===
/**
  The three PHP string primitives the bank registry relies on, stated over
  `seq<char>`: removing non-digits with `preg_replace('/[^0-9]/', '', s)`,
  `substr` with non-negative offsets (which clamps at the end of the string),
  and the header test `preg_match("/^\d{4}$/", s)`.

  A character stands for one byte of a PHP string. The two readings agree on
  ASCII text, and the stripping and the header test agree on any UTF-8 text,
  since no byte of a multi-byte character is an ASCII digit.
*/
module PhpStrings {

  /** The PCRE class `[0-9]` (and `\d` without the `u` modifier): ASCII digits only. */
  predicate IsDigit(c: char) {
    '0' <= c <= '9'
  }

  predicate AllDigits(s: string) {
    forall i :: 0 <= i < |s| ==> IsDigit(s[i])
  }

  /** `preg_replace('/[^0-9]/', '', s)`: the digits of `s`, in their order. */
  function OnlyDigits(s: string): (r: string)
    ensures |r| <= |s|
    ensures AllDigits(r)
    ensures AllDigits(s) ==> r == s
  {
    if |s| == 0 then []
    else
      assert s == [s[0]] + s[1..];
      (if IsDigit(s[0]) then [s[0]] else []) + OnlyDigits(s[1..])
  }

  /** Stripping keeps every digit as often as it occurs and drops every other character. */
  lemma {:induction false} OnlyDigitsKeepsDigits(s: string)
    ensures forall c :: multiset(OnlyDigits(s))[c] == if IsDigit(c) then multiset(s)[c] else 0
    decreases |s|
  {
    if |s| > 0 {
      OnlyDigitsKeepsDigits(s[1..]);
      assert s == [s[0]] + s[1..];
      assert multiset(s) == multiset([s[0]]) + multiset(s[1..]);
    }
  }

  /** Removing the non-digits of two strings separately and joining the results is removing them from the join. */
  lemma {:induction false} OnlyDigitsAppend(a: string, b: string)
    ensures OnlyDigits(a + b) == OnlyDigits(a) + OnlyDigits(b)
    decreases |a|
  {
    if |a| == 0 {
      assert a + b == b;
    } else {
      assert (a + b)[0] == a[0];
      assert (a + b)[1..] == a[1..] + b;
      OnlyDigitsAppend(a[1..], b);
    }
  }

  function Min(a: int, b: int): int {
    if a <= b then a else b
  }

  /**
    `substr(s, start, len)` for non-negative `start` and `len`: at most `len`
    characters from position `start`, clamped at the end of `s`; a start past
    the end yields the empty string (PHP 7's `false` concatenates as "").
  */
  function Substr(s: string, start: nat, len: nat): (r: string)
    ensures |r| == if start >= |s| then 0 else Min(len, |s| - start)
    ensures forall i :: 0 <= i < |r| ==> r[i] == s[start + i]
  {
    if start >= |s| then "" else s[start..Min(start + len, |s|)]
  }

  /** `substr(s, start)` for non-negative `start`: everything from `start` on, or "" past the end. */
  function SubstrFrom(s: string, start: nat): (r: string)
    ensures |r| == if start >= |s| then 0 else |s| - start
    ensures forall i :: 0 <= i < |r| ==> r[i] == s[start + i]
  {
    if start >= |s| then "" else s[start..]
  }

  /** The three clamped pieces used by the account formatter, as plain slices. */
  lemma SubstrPieces(s: string)
    ensures |s| >= 6 ==> Substr(s, 0, 4) == s[..4] && Substr(s, 4, 2) == s[4..6] && SubstrFrom(s, 6) == s[6..]
    ensures 4 <= |s| < 6 ==> Substr(s, 0, 4) == s[..4] && Substr(s, 4, 2) == s[4..] && SubstrFrom(s, 6) == ""
    ensures |s| < 4 ==> Substr(s, 0, 4) == s && Substr(s, 4, 2) == "" && SubstrFrom(s, 6) == ""
  {
  }

  /** The three pieces put back together give the whole string. */
  lemma SubstrPiecesJoin(s: string)
    ensures Substr(s, 0, 4) + Substr(s, 4, 2) + SubstrFrom(s, 6) == s
  {
    SubstrPieces(s);
    if |s| >= 6 {
      assert s[..4] + s[4..6] + s[6..] == s;
    } else if |s| >= 4 {
      assert s[..4] + s[4..] == s;
    }
  }

  /**
    `preg_match("/^\d{4}$/", s) === 1`. Without the `D` modifier, PCRE's `$`
    also matches just before a final newline, so "1234\n" matches too.
  */
  predicate MatchesFourDigits(s: string) {
    || (|s| == 4 && AllDigits(s))
    || (|s| == 5 && AllDigits(s[..4]) && s[4] == '\n')
  }
}

=== FILE: registry.dfy ===
/**
  Building the registry from the decoded spreadsheet: a fold over the data
  rows that creates one bank per distinct bank code (in first-seen order),
  appends every later prefix of that code to it, and records
  prefix -> bank code for every row, the last row for a prefix winning.
*/
module Registry {
  import opened Nullable
  import opened PhpStrings
  import opened PhpArrays
  import opened NorwegianBank

  /** One decoded spreadsheet row: prefix cell, bank-code cell (`None` for an empty cell), bank-name cell. */
  datatype Row = Row(prefix: string, bankCode: Option<string>, bankName: string)

  /** The code recorded for a row whose bank-code cell is empty. */
  const MissingBankCode: string := "n/a"

  /** The registry snapshot: banks by code, and bank code by prefix, both in PHP insertion order. */
  datatype Registry = Registry(banks: OrderedMap<string, Bank>, prefixToBankCode: OrderedMap<string, string>)

  /** The code the loop files a row under: its bank-code cell, or "n/a" when the cell is empty. */
  function EffectiveCode(row: Row): (r: string)
    ensures row.bankCode.None? ==> r == MissingBankCode
    ensures row.bankCode.Some? ==> r == row.bankCode.value
  {
    match row.bankCode
    case None => MissingBankCode
    case Some(code) => code
  }

  /**
    The invariant linking the two tables: every prefix maps to a code that has
    a bank, that bank carries its own code and lists the prefix, and every
    prefix a bank lists is a key of the prefix table.
  */
  ghost predicate WellFormed(reg: Registry) {
    && reg.banks.Valid()
    && reg.prefixToBankCode.Valid()
    && (forall c :: c in reg.banks.values ==> reg.banks.values[c].bankCode == c)
    && (forall p :: p in reg.prefixToBankCode.values ==>
          && reg.prefixToBankCode.values[p] in reg.banks.values
          && p in reg.banks.values[reg.prefixToBankCode.values[p]].prefixes)
    && (forall c, p :: c in reg.banks.values && p in reg.banks.values[c].prefixes ==>
          p in reg.prefixToBankCode.values)
  }

  function EmptyRegistry(): (reg: Registry)
    ensures WellFormed(reg)
  {
    Registry(Empty(), Empty())
  }

  /** One iteration of the row loop. */
  function Step(reg: Registry, row: Row): Registry {
    var code := EffectiveCode(row);
    var banks :=
      if code in reg.banks.values
      then reg.banks.Put(code, AddPrefix(reg.banks.values[code], row.prefix))
      else reg.banks.Put(code, NewBank(code, row.bankName, [row.prefix]));
    Registry(banks, reg.prefixToBankCode.Put(row.prefix, code))
  }

  /** One loop iteration keeps the invariant linking the two tables. */
  lemma StepPreservesWellFormed(reg: Registry, row: Row)
    requires WellFormed(reg)
    ensures WellFormed(Step(reg, row))
  {
    StepBankCodes(reg, row);
    StepKeepsListedPrefixes(reg, row);
    StepKeepsResolution(reg, row);
  }

  lemma StepBankCodes(reg: Registry, row: Row)
    requires WellFormed(reg)
    ensures var r := Step(reg, row);
      && r.banks.Valid() && r.prefixToBankCode.Valid()
      && forall c :: c in r.banks.values ==> r.banks.values[c].bankCode == c
  {
  }

  /** Every prefix a bank lists after the step is a key of the prefix table. */
  lemma StepKeepsListedPrefixes(reg: Registry, row: Row)
    requires WellFormed(reg)
    ensures var r := Step(reg, row);
      forall c, p :: c in r.banks.values && p in r.banks.values[c].prefixes ==> p in r.prefixToBankCode.values
  {
    var code := EffectiveCode(row);
    var r := Step(reg, row);
    forall c, p | c in r.banks.values && p in r.banks.values[c].prefixes
      ensures p in r.prefixToBankCode.values
    {
      if c == code && code in reg.banks.values {
        var before := reg.banks.values[code].prefixes;
        assert r.banks.values[c].prefixes == before + [row.prefix];
        if p != row.prefix {
          assert p in before;
        }
      }
    }
  }

  /** Every prefix resolves, after the step, to a bank that lists it. */
  lemma StepKeepsResolution(reg: Registry, row: Row)
    requires WellFormed(reg)
    ensures var r := Step(reg, row);
      forall p :: p in r.prefixToBankCode.values ==>
        && r.prefixToBankCode.values[p] in r.banks.values
        && p in r.banks.values[r.prefixToBankCode.values[p]].prefixes
  {
    var code := EffectiveCode(row);
    var r := Step(reg, row);
    forall p | p in r.prefixToBankCode.values
      ensures r.prefixToBankCode.values[p] in r.banks.values
      ensures p in r.banks.values[r.prefixToBankCode.values[p]].prefixes
    {
      if p != row.prefix {
        var c := reg.prefixToBankCode.values[p];
        assert r.prefixToBankCode.values[p] == c;
        if c == code {
          assert r.banks.values[c].prefixes == reg.banks.values[c].prefixes + [row.prefix];
        }
      } else if code in reg.banks.values {
        assert r.banks.values[code].prefixes == reg.banks.values[code].prefixes + [row.prefix];
      }
    }
  }

  /** The loop's starting index: 0 when cell [0][0] is a 4-digit prefix, else 1 (a header row). */
  function StartKey(rows: seq<Row>): nat {
    if |rows| > 0 && MatchesFourDigits(rows[0].prefix) then 0 else 1
  }

  /** The rows the loop visits. */
  function DataRows(rows: seq<Row>): seq<Row> {
    if StartKey(rows) <= |rows| then rows[StartKey(rows)..] else []
  }

  /** The loop over the rows, as a left fold. */
  function Fold(d: seq<Row>): Registry
  {
    if |d| == 0 then EmptyRegistry()
    else Step(Fold(d[..|d| - 1]), d[|d| - 1])
  }

  /** The tables `processData` builds from the decoded rows. */
  function BuildTable(rows: seq<Row>): Registry {
    Fold(DataRows(rows))
  }

  // ---------------------------------------------------------------------
  // Reference definitions, stated over the rows alone

  /** The bank-code column, after the empty-cell substitution. */
  function Codes(d: seq<Row>): (r: seq<string>)
    ensures |r| == |d| && forall i :: 0 <= i < |d| ==> r[i] == EffectiveCode(d[i])
  {
    seq(|d|, i requires 0 <= i < |d| => EffectiveCode(d[i]))
  }

  /** The prefix column. */
  function Prefixes(d: seq<Row>): (r: seq<string>)
    ensures |r| == |d| && forall i :: 0 <= i < |d| ==> r[i] == d[i].prefix
  {
    seq(|d|, i requires 0 <= i < |d| => d[i].prefix)
  }

  /** The distinct elements of `s`, each where it first appears. */
  function FirstSeen(s: seq<string>): (r: seq<string>)
    ensures forall x :: x in r <==> x in s
    ensures forall i, j :: 0 <= i < j < |r| ==> r[i] != r[j]
  {
    if |s| == 0 then []
    else
      var init := s[..|s| - 1];
      assert s == init + [s[|s| - 1]];
      if s[|s| - 1] in init then FirstSeen(init) else FirstSeen(init) + [s[|s| - 1]]
  }

  /** The position where `x` first appears in `s`. */
  function FirstIndex(s: seq<string>, x: string): (r: nat)
    requires x in s
    ensures r < |s| && s[r] == x && FirstOccurrence(s, r)
  {
    if s[0] == x then 0 else 1 + FirstIndex(s[1..], x)
  }

  /** Extending a sequence moves no element's first appearance. */
  lemma FirstIndexOfPrefix(init: seq<string>, s: seq<string>, x: string)
    requires init <= s && x in init
    ensures FirstIndex(s, x) == FirstIndex(init, x)
  {
    var i, k := FirstIndex(s, x), FirstIndex(init, x);
    assert s[k] == x;
  }

  /**
    `FirstSeen` lists the distinct elements in the order of their first
    appearance: of two listed elements, the earlier one appears first in `s`.
  */
  lemma {:induction false} FirstSeenOrder(s: seq<string>)
    ensures forall i, j :: 0 <= i < j < |FirstSeen(s)| ==>
      FirstIndex(s, FirstSeen(s)[i]) < FirstIndex(s, FirstSeen(s)[j])
    decreases |s|
  {
    if |s| > 0 {
      var init := s[..|s| - 1];
      assert s == init + [s[|s| - 1]];
      FirstSeenOrder(init);
      var last := s[|s| - 1];
      var q := FirstSeen(init);
      forall x | x in init
        ensures FirstIndex(s, x) == FirstIndex(init, x)
      {
        FirstIndexOfPrefix(init, s, x);
      }
      if last !in init {
        assert FirstSeen(s) == q + [last];
        assert FirstIndex(s, last) == |s| - 1;
        var r := q + [last];
        forall i, j | 0 <= i < j < |r|
          ensures FirstIndex(s, r[i]) < FirstIndex(s, r[j])
        {
          assert r[i] == q[i] && q[i] in init;
          assert FirstIndex(s, q[i]) == FirstIndex(init, q[i]) < |init|;
          if j < |q| {
            assert r[j] == q[j] && q[j] in init;
            assert FirstIndex(init, q[i]) < FirstIndex(init, q[j]);
          }
        }
      }
    }
  }

  /** The prefixes of the rows carrying bank code `c`, in row order. */
  function PrefixesOf(d: seq<Row>, c: string): (r: seq<string>)
    ensures (forall i :: 0 <= i < |d| ==> EffectiveCode(d[i]) != c) ==> r == []
    ensures forall i :: 0 <= i < |d| && EffectiveCode(d[i]) == c ==> d[i].prefix in r
    ensures forall x :: x in r ==> exists i :: 0 <= i < |d| && EffectiveCode(d[i]) == c && d[i].prefix == x
  {
    if |d| == 0 then []
    else
      var init, row := d[..|d| - 1], d[|d| - 1];
      assert forall i :: 0 <= i < |init| ==> init[i] == d[i];
      PrefixesOf(init, c) + (if EffectiveCode(row) == c then [row.prefix] else [])
  }

  /** Position `i` is where `s[i]` first appears. */
  predicate FirstOccurrence(s: seq<string>, i: int) {
    0 <= i < |s| && forall j :: 0 <= j < i ==> s[j] != s[i]
  }

  /** Position `i` is where `s[i]` last appears. */
  predicate LastOccurrence(s: seq<string>, i: int) {
    0 <= i < |s| && forall j :: i < j < |s| ==> s[j] != s[i]
  }

  // ---------------------------------------------------------------------
  // What the fold computes

  lemma ColumnsOfInit(d: seq<Row>)
    requires |d| > 0
    ensures Codes(d) == Codes(d[..|d| - 1]) + [EffectiveCode(d[|d| - 1])]
    ensures Prefixes(d) == Prefixes(d[..|d| - 1]) + [d[|d| - 1].prefix]
  {
  }

  /** The invariant linking the two tables holds of every fold. */
  lemma {:induction false} FoldWellFormed(d: seq<Row>)
    ensures WellFormed(Fold(d))
    decreases |d|
  {
    if |d| > 0 {
      FoldWellFormed(d[..|d| - 1]);
      StepPreservesWellFormed(Fold(d[..|d| - 1]), d[|d| - 1]);
    }
  }

  /**
    The banks are listed in the order their codes first appear in the rows,
    the prefix table in the order its prefixes first appear.
  */
  lemma FoldKeys(d: seq<Row>)
    ensures Fold(d).banks.keys == FirstSeen(Codes(d))
    ensures Fold(d).prefixToBankCode.keys == FirstSeen(Prefixes(d))
  {
    FoldBankKeys(d);
    FoldPrefixKeys(d);
  }

  /** The codes with a bank are exactly the codes of the rows, the mapped prefixes exactly the prefixes of the rows. */
  lemma FoldDomains(d: seq<Row>)
    ensures forall c :: c in Fold(d).banks.values <==> c in Codes(d)
    ensures forall p :: p in Fold(d).prefixToBankCode.values <==> p in Prefixes(d)
  {
    FoldBankKeys(d);
    FoldPrefixKeys(d);
  }

  /** The bank halves of `FoldKeys` and `FoldDomains`. */
  lemma {:induction false} FoldBankKeys(d: seq<Row>)
    ensures Fold(d).banks.keys == FirstSeen(Codes(d))
    ensures forall c :: c in Fold(d).banks.values <==> c in Codes(d)
    decreases |d|
  {
    if |d| > 0 {
      var init := d[..|d| - 1];
      var row := d[|d| - 1];
      var code := EffectiveCode(row);
      FoldBankKeys(init);
      FoldWellFormed(d);
      FoldWellFormed(init);
      ColumnsOfInit(d);
      var before := Fold(init);
      assert Fold(d) == Step(before, row);
      var codes := Codes(d);
      assert codes[..|d| - 1] == Codes(init);
      assert FirstSeen(codes) ==
        if code in Codes(init) then FirstSeen(Codes(init)) else FirstSeen(Codes(init)) + [code];
      assert code in before.banks.values <==> code in Codes(init);
    }
  }

  /** The prefix-table halves of `FoldKeys` and `FoldDomains`. */
  lemma {:induction false} FoldPrefixKeys(d: seq<Row>)
    ensures Fold(d).prefixToBankCode.keys == FirstSeen(Prefixes(d))
    ensures forall p :: p in Fold(d).prefixToBankCode.values <==> p in Prefixes(d)
    decreases |d|
  {
    if |d| > 0 {
      var init := d[..|d| - 1];
      var row := d[|d| - 1];
      FoldPrefixKeys(init);
      FoldWellFormed(d);
      FoldWellFormed(init);
      ColumnsOfInit(d);
      var before := Fold(init);
      assert Fold(d) == Step(before, row);
      var prefixes := Prefixes(d);
      assert prefixes[..|d| - 1] == Prefixes(init);
      assert FirstSeen(prefixes) ==
        if row.prefix in Prefixes(init) then FirstSeen(Prefixes(init)) else FirstSeen(Prefixes(init)) + [row.prefix];
      assert row.prefix in before.prefixToBankCode.values <==> row.prefix in Prefixes(init);
    }
  }

  /** What one loop iteration does to the bank table. */
  lemma StepBanks(reg: Registry, row: Row)
    ensures EffectiveCode(row) in Step(reg, row).banks.values
    ensures EffectiveCode(row) in reg.banks.values ==>
      Step(reg, row).banks.values[EffectiveCode(row)]
        == AddPrefix(reg.banks.values[EffectiveCode(row)], row.prefix)
    ensures EffectiveCode(row) !in reg.banks.values ==>
      Step(reg, row).banks.values[EffectiveCode(row)]
        == Bank(EffectiveCode(row), row.bankName, [row.prefix])
    ensures forall c :: c in Step(reg, row).banks.values && c != EffectiveCode(row) ==>
      c in reg.banks.values && Step(reg, row).banks.values[c] == reg.banks.values[c]
  {
  }

  lemma CodeAbsent(d: seq<Row>, c: string)
    requires c !in Codes(d)
    ensures forall i :: 0 <= i < |d| ==> EffectiveCode(d[i]) != c
  {
    forall i | 0 <= i < |d| ensures EffectiveCode(d[i]) != c {
      assert Codes(d)[i] == EffectiveCode(d[i]);
    }
  }

  /** The bank-table step of `FoldBankPrefixes`, for one code. */
  lemma BankPrefixesStep(init: seq<Row>, row: Row, c: string)
    requires c in Fold(init).banks.values ==>
      && Fold(init).banks.values[c].bankCode == c
      && Fold(init).banks.values[c].prefixes == PrefixesOf(init, c)
    requires c in Fold(init).banks.values <==> c in Codes(init)
    ensures c in Fold(init + [row]).banks.values ==>
      && Fold(init + [row]).banks.values[c].bankCode == c
      && Fold(init + [row]).banks.values[c].prefixes == PrefixesOf(init + [row], c)
  {
    var d := init + [row];
    assert d[..|d| - 1] == init;
    assert Fold(d) == Step(Fold(init), row);
    assert PrefixesOf(d, c) == PrefixesOf(init, c) + (if EffectiveCode(row) == c then [row.prefix] else []);
    StepBanks(Fold(init), row);
    if c == EffectiveCode(row) && c !in Fold(init).banks.values {
      CodeAbsent(init, c);
    }
  }

  /** Each bank carries its own code and the prefixes of all rows with that code, in row order. */
  lemma {:induction false} FoldBankPrefixes(d: seq<Row>)
    ensures forall c :: c in Fold(d).banks.values ==>
      && Fold(d).banks.values[c].bankCode == c
      && Fold(d).banks.values[c].prefixes == PrefixesOf(d, c)
    decreases |d|
  {
    if |d| > 0 {
      var init := d[..|d| - 1];
      var row := d[|d| - 1];
      assert d == init + [row];
      FoldBankPrefixes(init);
      FoldDomains(init);
      forall c | c in Fold(d).banks.values
        ensures Fold(d).banks.values[c].bankCode == c
        ensures Fold(d).banks.values[c].prefixes == PrefixesOf(d, c)
      {
        BankPrefixesStep(init, row, c);
      }
    }
  }

  /** The bank-table step of `FoldBankNames`, for one row position. */
  lemma BankNameStep(init: seq<Row>, row: Row, i: int)
    requires FirstOccurrence(Codes(init), i) ==>
      && Codes(init)[i] in Fold(init).banks.values
      && Fold(init).banks.values[Codes(init)[i]].bankName == init[i].bankName
    requires forall c :: c in Fold(init).banks.values <==> c in Codes(init)
    ensures FirstOccurrence(Codes(init + [row]), i) ==>
      && Codes(init + [row])[i] in Fold(init + [row]).banks.values
      && Fold(init + [row]).banks.values[Codes(init + [row])[i]].bankName == (init + [row])[i].bankName
  {
    var d := init + [row];
    var code := EffectiveCode(row);
    assert d[..|d| - 1] == init;
    assert Fold(d) == Step(Fold(init), row);
    StepBanks(Fold(init), row);
    if FirstOccurrence(Codes(d), i) {
      if i < |init| {
        assert Codes(d)[i] == Codes(init)[i];
        assert FirstOccurrence(Codes(init), i) by {
          forall j | 0 <= j < i ensures Codes(init)[j] != Codes(init)[i] {
            assert Codes(d)[j] == Codes(init)[j];
          }
        }
      } else {
        assert code !in Codes(init) by {
          forall j | 0 <= j < |init| ensures Codes(init)[j] != code {
            assert Codes(d)[j] == Codes(init)[j];
          }
        }
      }
    }
  }

  /** Each bank carries the name of the first row with its code. */
  lemma {:induction false} FoldBankNames(d: seq<Row>)
    ensures forall i :: FirstOccurrence(Codes(d), i) ==>
      && Codes(d)[i] in Fold(d).banks.values
      && Fold(d).banks.values[Codes(d)[i]].bankName == d[i].bankName
    decreases |d|
  {
    if |d| > 0 {
      var init := d[..|d| - 1];
      var row := d[|d| - 1];
      assert d == init + [row];
      FoldBankNames(init);
      FoldDomains(init);
      forall i | FirstOccurrence(Codes(d), i)
        ensures Codes(d)[i] in Fold(d).banks.values
        ensures Fold(d).banks.values[Codes(d)[i]].bankName == d[i].bankName
      {
        BankNameStep(init, row, i);
      }
    }
  }

  /** Every prefix maps to the code of the LAST row carrying it. */
  lemma {:induction false} FoldPrefixMap(d: seq<Row>)
    ensures forall i :: LastOccurrence(Prefixes(d), i) ==>
      && Prefixes(d)[i] in Fold(d).prefixToBankCode.values
      && Fold(d).prefixToBankCode.values[Prefixes(d)[i]] == Codes(d)[i]
    decreases |d|
  {
    if |d| > 0 {
      var init := d[..|d| - 1];
      FoldPrefixMap(init);
      ColumnsOfInit(d);
      forall i | LastOccurrence(Prefixes(d), i)
        ensures Prefixes(d)[i] in Fold(d).prefixToBankCode.values
        ensures Fold(d).prefixToBankCode.values[Prefixes(d)[i]] == Codes(d)[i]
      {
        if i < |init| {
          assert Prefixes(d)[i] != d[|d| - 1].prefix;
          assert LastOccurrence(Prefixes(init), i);
        }
      }
    }
  }

  lemma {:induction false} LastOccurrenceExists(s: seq<string>, x: string)
    requires x in s
    ensures exists j :: LastOccurrence(s, j) && s[j] == x
    decreases |s|
  {
    var n := |s| - 1;
    if s[n] == x {
      assert LastOccurrence(s, n);
    } else {
      assert x in s[..n];
      LastOccurrenceExists(s[..n], x);
      var j :| LastOccurrence(s[..n], j) && s[..n][j] == x;
      assert LastOccurrence(s, j);
    }
  }

  /** No prefix is listed under two different bank codes. */
  predicate ConsistentPrefixes(d: seq<Row>) {
    forall i, j :: 0 <= i < |d| && 0 <= j < |d| && d[i].prefix == d[j].prefix ==>
      EffectiveCode(d[i]) == EffectiveCode(d[j])
  }

  /**
    When no prefix is listed under two codes, every prefix a bank lists
    resolves back to that bank's code.
  */
  lemma PrefixRoundTrip(d: seq<Row>)
    requires ConsistentPrefixes(d)
    ensures forall c, p :: c in Fold(d).banks.values && p in Fold(d).banks.values[c].prefixes ==>
      p in Fold(d).prefixToBankCode.values && Fold(d).prefixToBankCode.values[p] == c
  {
    var reg := Fold(d);
    FoldBankPrefixes(d);
    forall c, p | c in reg.banks.values && p in reg.banks.values[c].prefixes
      ensures p in reg.prefixToBankCode.values && reg.prefixToBankCode.values[p] == c
    {
      assert p in PrefixesOf(d, c);
      PrefixResolvesTo(d, c, p);
    }
  }

  /** A prefix some row lists under code `c` resolves to `c` when prefixes are consistent. */
  lemma PrefixResolvesTo(d: seq<Row>, c: string, p: string)
    requires ConsistentPrefixes(d)
    requires p in PrefixesOf(d, c)
    ensures p in Fold(d).prefixToBankCode.values && Fold(d).prefixToBankCode.values[p] == c
  {
    var i :| 0 <= i < |d| && EffectiveCode(d[i]) == c && d[i].prefix == p;
    assert Prefixes(d)[i] == p;
    LastOccurrenceExists(Prefixes(d), p);
    var j :| LastOccurrence(Prefixes(d), j) && Prefixes(d)[j] == p;
    assert d[j].prefix == p;
    FoldPrefixMap(d);
  }

  /**
    Without that condition the round trip fails: a prefix listed under one
    code and last listed under another stays in the first bank's list but
    resolves to the other code.
  */
  lemma DuplicatePrefixBreaksRoundTrip(d: seq<Row>, i: int, j: int)
    requires 0 <= i < j < |d| && d[i].prefix == d[j].prefix
    requires LastOccurrence(Prefixes(d), j) && EffectiveCode(d[i]) != EffectiveCode(d[j])
    ensures EffectiveCode(d[i]) in Fold(d).banks.values
    ensures d[i].prefix in Fold(d).banks.values[EffectiveCode(d[i])].prefixes
    ensures d[i].prefix in Fold(d).prefixToBankCode.values
    ensures Fold(d).prefixToBankCode.values[d[i].prefix] == EffectiveCode(d[j])
  {
    FoldDomains(d);
    FoldBankPrefixes(d);
    FoldPrefixMap(d);
    assert Codes(d)[i] == EffectiveCode(d[i]);
    assert Prefixes(d)[j] == d[j].prefix;
  }

  /** A sheet with a prefix under two codes has a bank listing a prefix that resolves elsewhere. */
  lemma InconsistentPrefixesBreakRoundTrip(d: seq<Row>)
    requires !ConsistentPrefixes(d)
    ensures exists c, p ::
      && c in Fold(d).banks.values
      && p in Fold(d).banks.values[c].prefixes
      && !(p in Fold(d).prefixToBankCode.values && Fold(d).prefixToBankCode.values[p] == c)
  {
    var i, j :| 0 <= i < |d| && 0 <= j < |d| && d[i].prefix == d[j].prefix && EffectiveCode(d[i]) != EffectiveCode(d[j]);
    var p := d[i].prefix;
    assert Prefixes(d)[i] == p;
    LastOccurrenceExists(Prefixes(d), p);
    var n :| LastOccurrence(Prefixes(d), n) && Prefixes(d)[n] == p;
    assert Prefixes(d)[j] == p;
    var k := if EffectiveCode(d[i]) != EffectiveCode(d[n]) then i else j;
    assert k < n;
    DuplicatePrefixBreaksRoundTrip(d, k, n);
  }

  /** Every listed prefix resolves back to its bank exactly when no prefix is listed under two codes. */
  lemma RoundTripIffConsistent(d: seq<Row>)
    ensures (forall c, p :: c in Fold(d).banks.values && p in Fold(d).banks.values[c].prefixes ==>
      p in Fold(d).prefixToBankCode.values && Fold(d).prefixToBankCode.values[p] == c)
      <==> ConsistentPrefixes(d)
  {
    if ConsistentPrefixes(d) {
      PrefixRoundTrip(d);
    } else {
      InconsistentPrefixesBreakRoundTrip(d);
    }
  }

  /**
    Header detection: when cell [0][0] is a 4-digit prefix, row 0 is data:
    its prefix is mapped and its code has a bank. Otherwise row 0 is a
    header: its first cell is a key only if a later row carries the same
    prefix, and its code cell has a bank only if a later row carries that code.
  */
  lemma HeaderDetection(rows: seq<Row>)
    requires |rows| > 0
    ensures MatchesFourDigits(rows[0].prefix) ==>
      && rows[0].prefix in BuildTable(rows).prefixToBankCode.values
      && EffectiveCode(rows[0]) in BuildTable(rows).banks.values
    ensures !MatchesFourDigits(rows[0].prefix) ==>
      (rows[0].prefix in BuildTable(rows).prefixToBankCode.values <==>
        exists i :: 1 <= i < |rows| && rows[i].prefix == rows[0].prefix)
    ensures !MatchesFourDigits(rows[0].prefix) ==>
      (EffectiveCode(rows[0]) in BuildTable(rows).banks.values <==>
        exists i :: 1 <= i < |rows| && EffectiveCode(rows[i]) == EffectiveCode(rows[0]))
  {
    if MatchesFourDigits(rows[0].prefix) {
      FirstRowIsData(rows);
    } else {
      FirstRowIsHeader(rows);
      HeaderRowHasNoOwnBank(rows);
    }
  }

  lemma FirstRowIsData(rows: seq<Row>)
    requires |rows| > 0 && MatchesFourDigits(rows[0].prefix)
    ensures rows[0].prefix in BuildTable(rows).prefixToBankCode.values
    ensures EffectiveCode(rows[0]) in BuildTable(rows).banks.values
  {
    var d := DataRows(rows);
    assert d == rows;
    FoldDomains(d);
    assert Prefixes(d)[0] == rows[0].prefix;
    assert Codes(d)[0] == EffectiveCode(rows[0]);
  }

  lemma FirstRowIsHeader(rows: seq<Row>)
    requires |rows| > 0 && !MatchesFourDigits(rows[0].prefix)
    ensures rows[0].prefix in BuildTable(rows).prefixToBankCode.values <==>
      exists i :: 1 <= i < |rows| && rows[i].prefix == rows[0].prefix
  {
    var d := DataRows(rows);
    assert d == rows[1..];
    FoldDomains(d);
    if rows[0].prefix in Prefixes(d) {
      var k :| 0 <= k < |d| && Prefixes(d)[k] == rows[0].prefix;
      assert rows[k + 1].prefix == rows[0].prefix;
    }
    if exists i :: 1 <= i < |rows| && rows[i].prefix == rows[0].prefix {
      var i :| 1 <= i < |rows| && rows[i].prefix == rows[0].prefix;
      assert Prefixes(d)[i - 1] == rows[0].prefix;
    }
  }

  lemma HeaderRowHasNoOwnBank(rows: seq<Row>)
    requires |rows| > 0 && !MatchesFourDigits(rows[0].prefix)
    ensures EffectiveCode(rows[0]) in BuildTable(rows).banks.values <==>
      exists i :: 1 <= i < |rows| && EffectiveCode(rows[i]) == EffectiveCode(rows[0])
  {
    var d := DataRows(rows);
    assert d == rows[1..];
    FoldDomains(d);
    var c := EffectiveCode(rows[0]);
    if c in Codes(d) {
      var k :| 0 <= k < |d| && Codes(d)[k] == c;
      assert EffectiveCode(rows[k + 1]) == c;
    }
    if exists i :: 1 <= i < |rows| && EffectiveCode(rows[i]) == c {
      var i :| 1 <= i < |rows| && EffectiveCode(rows[i]) == c;
      assert Codes(d)[i - 1] == c;
    }
  }

  /**
    The row loop of `processData`: from the start key, each row creates or
    extends its bank and records its prefix.
  */
  method ProcessRows(rows: seq<Row>) returns (reg: Registry)
    ensures WellFormed(reg)
    ensures reg == BuildTable(rows)
  {
    var startKey := StartKey(rows);
    if startKey > |rows| {
      reg := EmptyRegistry();
      FoldWellFormed([]);
      return;
    }
    reg := FoldFrom(rows, startKey);
    FoldWellFormed(rows[startKey..]);
  }

  /** The loop itself: every row from `lo` on, in order, one step each. */
  method FoldFrom(rows: seq<Row>, lo: nat) returns (reg: Registry)
    requires lo <= |rows|
    ensures reg == Fold(rows[lo..])
  {
    var d := rows[lo..];
    reg := EmptyRegistry();
    var i := 0;
    while i < |d|
      invariant 0 <= i <= |d|
      invariant reg == Fold(d[..i])
    {
      FoldPrefixStep(d, i, reg);
      reg := Step(reg, d[i]);
      i := i + 1;
    }
    assert d[..i] == d;
  }

  /** Folding one more element of a prefix is one more step. */
  lemma FoldPrefixStep(d: seq<Row>, i: nat, reg: Registry)
    requires i < |d| && reg == Fold(d[..i])
    ensures Step(reg, d[i]) == Fold(d[..i + 1])
  {
    assert d[..i + 1][..i] == d[..i];
  }
}

=== FILE: sample_table.dfy ===
/**
  Concrete cases from the repository's test suite, proved of a
  small table holding the three banks those tests use, after a header row.
*/
module SampleTable {
  import opened Nullable
  import opened PhpStrings
  import opened Checksum
  import opened Registry
  import opened NorwegianBanks

  /** A decoded sheet: a header row, then one prefix for each of the three test banks. */
  function SampleRows(): seq<Row> {
    [ Row("Bank identifier", Some("BIC"), "Bank"),
      Row("1594", Some("DNBANOKK"), "DNB Bank"),
      Row("6105", Some("NDEANOKK"), "Nordea Bank"),
      Row("3000", Some("SPSONO22"), "Sparebanken Sor") ]
  }

  /** The header row is recognised and skipped; the columns of the data rows. */
  lemma SampleColumns(rows: seq<Row>)
    requires rows == SampleRows()
    ensures DataRows(rows) == rows[1..]
    ensures Prefixes(DataRows(rows)) == ["1594", "6105", "3000"]
    ensures Codes(DataRows(rows)) == ["DNBANOKK", "NDEANOKK", "SPSONO22"]
    ensures "0000" !in Prefixes(DataRows(rows)) && "1234" !in Prefixes(DataRows(rows))
  {
    assert !MatchesFourDigits(rows[0].prefix);
  }

  /** The entries of the sample table that the test suite relies on. */
  ghost predicate HasSampleEntries(reg: Registry) {
    && WellFormed(reg)
    && "1594" in reg.prefixToBankCode.values
    && "6105" in reg.prefixToBankCode.values
    && "3000" in reg.prefixToBankCode.values
    && "0000" !in reg.prefixToBankCode.values
    && "1234" !in reg.prefixToBankCode.values
    && reg.prefixToBankCode.values["1594"] == "DNBANOKK"
    && reg.prefixToBankCode.values["6105"] == "NDEANOKK"
    && reg.prefixToBankCode.values["3000"] == "SPSONO22"
  }

  /** A prefix absent from the prefix column is absent from the table. */
  lemma AbsentFromColumn(d: seq<Row>, p: string)
    requires p !in Prefixes(d)
    ensures p !in Fold(d).prefixToBankCode.values
  {
    FoldDomains(d);
  }

  /** Prefix-table values of a table built from rows with these two columns. */
  lemma ValuesFromColumns(d: seq<Row>)
    requires Prefixes(d) == ["1594", "6105", "3000"]
    requires Codes(d) == ["DNBANOKK", "NDEANOKK", "SPSONO22"]
    ensures "1594" in Fold(d).prefixToBankCode.values
    ensures "6105" in Fold(d).prefixToBankCode.values
    ensures "3000" in Fold(d).prefixToBankCode.values
    ensures Fold(d).prefixToBankCode.values["1594"] == "DNBANOKK"
    ensures Fold(d).prefixToBankCode.values["6105"] == "NDEANOKK"
    ensures Fold(d).prefixToBankCode.values["3000"] == "SPSONO22"
  {
    var ps := Prefixes(d);
    FoldPrefixMap(d);
    assert LastOccurrence(ps, 0) && LastOccurrence(ps, 1) && LastOccurrence(ps, 2);
  }

  /** The sample sheet yields the three test prefixes, each mapped to its bank. */
  lemma SampleTableContents(rows: seq<Row>)
    requires rows == SampleRows()
    ensures HasSampleEntries(BuildTable(rows))
  {
    SampleColumns(rows);
    FoldWellFormed(DataRows(rows));
    AbsentFromColumn(DataRows(rows), "0000");
    AbsentFromColumn(DataRows(rows), "1234");
    ValuesFromColumns(DataRows(rows));
  }

  /** A 4-2-5 grouping with one separator character between the groups strips to its eleven digits. */
  lemma StripGrouped(a: string)
    requires |a| == 13 && !IsDigit(a[4]) && !IsDigit(a[7])
    requires AllDigits(a[..4]) && AllDigits(a[5..7]) && AllDigits(a[8..])
    ensures OnlyDigits(a) == a[..4] + a[5..7] + a[8..]
  {
    var x1 := a[..4] + [a[4]];
    var x2 := x1 + a[5..7];
    var x3 := x2 + [a[7]];
    assert a == x3 + a[8..];
    OnlyDigitsAppend(a[..4], [a[4]]);
    OnlyDigitsAppend(x1, a[5..7]);
    OnlyDigitsAppend(x2, [a[7]]);
    OnlyDigitsAppend(x3, a[8..]);
  }

  /** The eleven-digit forms of the four test accounts pass the MOD 11 test. */
  lemma SampleChecksums()
    ensures WeightedSum("15942287248", Mod11Weights) % 11 == 0
    ensures WeightedSum("61050659274", Mod11Weights) % 11 == 0
    ensures WeightedSum("30002779419", Mod11Weights) % 11 == 0
    ensures WeightedSum("12345678903", Mod11Weights) % 11 == 0
  {
    Mod11SumClosedForm("15942287248");
    Mod11SumClosedForm("61050659274");
    Mod11SumClosedForm("30002779419");
    Mod11SumClosedForm("12345678903");
  }

  /** An account whose digits pass the MOD 11 test validates exactly when its prefix is known. */
  lemma ValidatesIffKnown(reg: Registry, account: string, digits: string)
    requires WellFormed(reg)
    requires OnlyDigits(account) == digits && |digits| == AccountLength
    requires WeightedSum(digits, Mod11Weights) % 11 == 0
    ensures ValidateAccountNumber(reg, account, false)
    ensures ValidateAccountNumber(reg, account) <==> digits[..4] in reg.prefixToBankCode.values
  {
  }

  /**
    An account whose digits pass the MOD 11 test, whose first four raw
    characters are its first four digits, and whose prefix is mapped,
    validates and resolves to the mapped bank.
  */
  lemma KnownAccount(reg: Registry, a: string, digits: string)
    requires WellFormed(reg)
    requires OnlyDigits(a) == digits && |digits| == AccountLength
    requires WeightedSum(digits, Mod11Weights) % 11 == 0
    requires Substr(a, 0, 4) == digits[..4]
    requires digits[..4] in reg.prefixToBankCode.values
    ensures ValidateAccountNumber(reg, a)
    ensures GetBankByAccountNumber(reg, a).Some?
    ensures GetBankByAccountNumber(reg, a).value.bankCode == reg.prefixToBankCode.values[digits[..4]]
  {
    ValidatesIffKnown(reg, a, digits);
  }

  /**
    An account written 4-2-5 with one non-digit between the groups, whose
    digits pass the MOD 11 test, passes the checksum-only validation, and
    validates and resolves exactly when its first group is a mapped prefix.
  */
  lemma GroupedAccount(reg: Registry, a: string)
    requires WellFormed(reg)
    requires |a| == 13 && !IsDigit(a[4]) && !IsDigit(a[7])
    requires AllDigits(a[..4]) && AllDigits(a[5..7]) && AllDigits(a[8..])
    requires WeightedSum(a[..4] + a[5..7] + a[8..], Mod11Weights) % 11 == 0
    ensures Substr(a, 0, 4) == a[..4]
    ensures ValidateAccountNumber(reg, a, false)
    ensures ValidateAccountNumber(reg, a) <==> a[..4] in reg.prefixToBankCode.values
    ensures GetBankByAccountNumber(reg, a).Some? <==> a[..4] in reg.prefixToBankCode.values
    ensures GetBankByAccountNumber(reg, a).Some? ==>
      GetBankByAccountNumber(reg, a).value.bankCode == reg.prefixToBankCode.values[a[..4]]
  {
    StripGrouped(a);
    var digits := a[..4] + a[5..7] + a[8..];
    assert digits[..4] == a[..4];
    assert Substr(a, 0, 4) == a[..4];
    ValidatesIffKnown(reg, a, digits);
  }

  /** "1594 22 87248" validates, and it and its first four characters resolve to DNBANOKK. */
  lemma DnbAccount(reg: Registry, a: string)
    requires HasSampleEntries(reg)
    requires a == "1594 22 87248"
    ensures ValidateAccountNumber(reg, a)
    ensures GetBankByAccountNumber(reg, a).Some?
    ensures GetBankByAccountNumber(reg, a).value.bankCode == "DNBANOKK"
    ensures GetBankCodeByPrefix(reg, Substr(a, 0, 4)) == Some("DNBANOKK")
  {
    SampleChecksums();
    assert a[..4] == "1594" && a[..4] + a[5..7] + a[8..] == "15942287248";
    GroupedAccount(reg, a);
  }

  /** "61050659274" validates, and it and its first four characters resolve to NDEANOKK. */
  lemma NordeaAccount(reg: Registry, a: string)
    requires HasSampleEntries(reg)
    requires a == "61050659274"
    ensures ValidateAccountNumber(reg, a)
    ensures GetBankByAccountNumber(reg, a).Some?
    ensures GetBankByAccountNumber(reg, a).value.bankCode == "NDEANOKK"
    ensures GetBankCodeByPrefix(reg, Substr(a, 0, 4)) == Some("NDEANOKK")
  {
    SampleChecksums();
    assert AllDigits(a) && a[..4] == "6105";
    assert Substr(a, 0, 4) == a[..4];
    KnownAccount(reg, a, a);
  }

  /** "3000.27.79419" validates, and it and its first four characters resolve to SPSONO22. */
  lemma SparebankenAccount(reg: Registry, a: string)
    requires HasSampleEntries(reg)
    requires a == "3000.27.79419"
    ensures ValidateAccountNumber(reg, a)
    ensures GetBankByAccountNumber(reg, a).Some?
    ensures GetBankByAccountNumber(reg, a).value.bankCode == "SPSONO22"
    ensures GetBankCodeByPrefix(reg, Substr(a, 0, 4)) == Some("SPSONO22")
  {
    SampleChecksums();
    assert a[..4] == "3000" && a[..4] + a[5..7] + a[8..] == "30002779419";
    GroupedAccount(reg, a);
  }

  /**
    "1234.56.78903" passes the checksum (sum 195, remainder 8, check digit 3)
    but not the prefix check, and neither it nor prefix "0000" resolves.
  */
  lemma UnknownAccount(reg: Registry, a: string)
    requires HasSampleEntries(reg)
    requires a == "1234.56.78903"
    ensures ValidateAccountNumber(reg, a, false)
    ensures !ValidateAccountNumber(reg, a)
    ensures GetBankByAccountNumber(reg, a) == None
    ensures GetBankCodeByPrefix(reg, "0000") == None
  {
    SampleChecksums();
    assert a[..4] == "1234" && a[..4] + a[5..7] + a[8..] == "12345678903";
    GroupedAccount(reg, a);
  }

  /** The formatter groups "12345678903" as 4-2-5, with a dot by default or a space on request. */
  lemma FormatExamples(a: string, delimiter: string)
    requires a == "12345678903" && (delimiter == "." || delimiter == " ")
    ensures GetFormattedAccountNumber(a, delimiter) == "1234" + delimiter + "56" + delimiter + "78903"
  {
    assert AllDigits(a);
    assert a[..4] == "1234" && a[4..6] == "56" && a[6..] == "78903";
  }

  /** Reformatting the spaced form gives the dotted one. */
  lemma ReformatExample(spaced: string)
    requires spaced == "1234 56 78903"
    ensures GetFormattedAccountNumber(spaced) == "1234" + "." + "56" + "." + "78903"
  {
    StripGrouped(spaced);
    var d := spaced[..4] + spaced[5..7] + spaced[8..];
    assert d[..4] == spaced[..4] == "1234";
    assert d[4..6] == spaced[5..7] == "56";
    assert d[6..] == spaced[8..] == "78903";
  }

  /** The formatting expectations of the test suite. */
  lemma FormatExpectations(unformatted: string, dotted: string, spaced: string)
    requires unformatted == "12345678903" && dotted == "1234.56.78903" && spaced == "1234 56 78903"
    ensures GetFormattedAccountNumber(unformatted) == dotted
    ensures GetFormattedAccountNumber(unformatted, " ") == spaced
  {
    FormatExamples(unformatted, ".");
    GroupedLiteral(dotted, ".");
    FormatExamples(unformatted, " ");
    GroupedLiteral(spaced, " ");
  }

  /** The two written forms of the test account, as groups and delimiters. */
  lemma GroupedLiteral(s: string, delimiter: string)
    requires (delimiter == "." && s == "1234.56.78903") || (delimiter == " " && s == "1234 56 78903")
    ensures s == "1234" + delimiter + "56" + delimiter + "78903"
  {
  }

  /** The lookup and validation expectations of the test suite, for any table holding the sample entries. */
  lemma LookupExpectations(reg: Registry, dnb: string, nordea: string, sparebanken: string, unknown: string)
    requires HasSampleEntries(reg)
    requires dnb == "1594 22 87248" && nordea == "61050659274" && sparebanken == "3000.27.79419"
    requires unknown == "1234.56.78903"
    ensures GetBankCodeByPrefix(reg, Substr(dnb, 0, 4)) == Some("DNBANOKK")
    ensures GetBankCodeByPrefix(reg, Substr(nordea, 0, 4)) == Some("NDEANOKK")
    ensures GetBankCodeByPrefix(reg, Substr(sparebanken, 0, 4)) == Some("SPSONO22")
    ensures GetBankCodeByPrefix(reg, "0000") == None
    ensures GetBankByAccountNumber(reg, dnb).Some?
    ensures GetBankByAccountNumber(reg, dnb).value.bankCode == "DNBANOKK"
    ensures GetBankByAccountNumber(reg, nordea).Some?
    ensures GetBankByAccountNumber(reg, nordea).value.bankCode == "NDEANOKK"
    ensures GetBankByAccountNumber(reg, sparebanken).Some?
    ensures GetBankByAccountNumber(reg, sparebanken).value.bankCode == "SPSONO22"
    ensures GetBankByAccountNumber(reg, unknown) == None
    ensures ValidateAccountNumber(reg, dnb)
    ensures ValidateAccountNumber(reg, nordea)
    ensures ValidateAccountNumber(reg, sparebanken)
    ensures !ValidateAccountNumber(reg, unknown)
    ensures ValidateAccountNumber(reg, unknown, false)
  {
    DnbAccount(reg, dnb);
    NordeaAccount(reg, nordea);
    SparebankenAccount(reg, sparebanken);
    UnknownAccount(reg, unknown);
  }

  /**
    The table built from the sample sheet meets every expectation of the
    test suite's instance-method tests.
  */
  lemma SampleTableMeetsTestSuite(rows: seq<Row>, dnb: string, nordea: string, sparebanken: string,
                                  unknown: string, unformatted: string, spaced: string)
    requires rows == SampleRows()
    requires dnb == "1594 22 87248" && nordea == "61050659274" && sparebanken == "3000.27.79419"
    requires unknown == "1234.56.78903" && unformatted == "12345678903" && spaced == "1234 56 78903"
    ensures GetFormattedAccountNumber(unformatted) == unknown
    ensures GetFormattedAccountNumber(unformatted, " ") == spaced
    ensures GetBankCodeByPrefix(BuildTable(rows), Substr(dnb, 0, 4)) == Some("DNBANOKK")
    ensures GetBankCodeByPrefix(BuildTable(rows), Substr(nordea, 0, 4)) == Some("NDEANOKK")
    ensures GetBankCodeByPrefix(BuildTable(rows), Substr(sparebanken, 0, 4)) == Some("SPSONO22")
    ensures GetBankCodeByPrefix(BuildTable(rows), "0000") == None
    ensures GetBankByAccountNumber(BuildTable(rows), dnb).Some?
    ensures GetBankByAccountNumber(BuildTable(rows), dnb).value.bankCode == "DNBANOKK"
    ensures GetBankByAccountNumber(BuildTable(rows), nordea).Some?
    ensures GetBankByAccountNumber(BuildTable(rows), nordea).value.bankCode == "NDEANOKK"
    ensures GetBankByAccountNumber(BuildTable(rows), sparebanken).Some?
    ensures GetBankByAccountNumber(BuildTable(rows), sparebanken).value.bankCode == "SPSONO22"
    ensures GetBankByAccountNumber(BuildTable(rows), unknown) == None
    ensures ValidateAccountNumber(BuildTable(rows), dnb)
    ensures ValidateAccountNumber(BuildTable(rows), nordea)
    ensures ValidateAccountNumber(BuildTable(rows), sparebanken)
    ensures !ValidateAccountNumber(BuildTable(rows), unknown)
    ensures ValidateAccountNumber(BuildTable(rows), unknown, false)
  {
    FormatExpectations(unformatted, unknown, spaced);
    SampleTableContents(rows);
    LookupExpectations(BuildTable(rows), dnb, nordea, sparebanken, unknown);
  }
}

=== FILE: source_refresh.dfy ===
/**
  The freshness decision taken before the table is read: whether to fetch
  the remote spreadsheet (unconditionally, or conditionally on the local
  copy's modification time) and what the response does to the local copy.
  The clock, the file system and the HTTP client are parameters.
*/
module SourceRefresh {

  /** Seconds a downloaded copy counts as fresh (`xlsFileTtl`). */
  const SourceTtl: int := 86400

  /** The local copy of the spreadsheet: absent, or its modification time and bytes. */
  datatype SourceFile = Missing | Present(mtime: int, content: seq<bv8>)

  /** The request made: none, a plain GET, or a GET with `If-Modified-Since: <mtime>`. */
  datatype Request = NoRequest | Get | ConditionalGet(ifModifiedSince: int)

  datatype Response = Response(status: int, body: seq<bv8>)

  /** What the response does to the local copy: overwrite it, bump its timestamp, or nothing. */
  datatype Effect = Write | Touch | NoChange

  /** The request and the local copy after `downloadData`. */
  datatype Outcome = Outcome(request: Request, file: SourceFile)

  /**
    The first half of `downloadData`. A missing copy counts as modified at
    time 0; a copy is too old once `mtime <= now - ttl` (the boundary
    included).
  */
  function PlanRequest(file: SourceFile, now: int, ttl: int): (r: Request)
    ensures r == Get <==> file.Missing?
    ensures r == NoRequest <==> file.Present? && now - file.mtime < ttl
    ensures r.ConditionalGet? ==> file.Present? && r.ifModifiedSince == file.mtime && now - file.mtime >= ttl
  {
    var fileExists := file.Present?;
    var mtime := if fileExists then file.mtime else 0;
    var tooOld := mtime <= now - ttl;
    if fileExists && tooOld then ConditionalGet(mtime)
    else if !fileExists then Get
    else NoRequest
  }

  /** The second half: 200 with a non-empty body writes, 304 touches, anything else changes nothing. */
  function ResponseEffect(response: Response): (e: Effect)
    ensures e == Write <==> response.status == 200 && |response.body| > 0
    ensures e == Touch <==> response.status == 304
    ensures e == NoChange <==> response.status != 304 && (response.status != 200 || |response.body| == 0)
  {
    if response.status == 200 && |response.body| > 0 then Write
    else if response.status == 304 then Touch
    else NoChange
  }

  /**
    The effect on the local copy at clock time `at`. `touch` on a missing
    file creates it empty.
  */
  function ApplyEffect(file: SourceFile, effect: Effect, body: seq<bv8>, at: int): (r: SourceFile)
    ensures effect == Write ==> r == Present(at, body)
    ensures effect == Touch ==> r.Present? && r.mtime == at && (file.Present? ==> r.content == file.content)
    ensures effect == Touch && file.Missing? ==> r == Present(at, [])
    ensures effect == NoChange ==> r == file
  {
    match effect
    case Write => Present(at, body)
    case Touch => Present(at, if file.Present? then file.content else [])
    case NoChange => file
  }

  /**
    `downloadData`: `now` is the clock read before deciding, `at` the clock
    when the file is written or touched, `response` what the server answers
    if asked.
  */
  function Refresh(file: SourceFile, now: int, ttl: int, response: Response, at: int): (r: Outcome)
    ensures r.request == NoRequest <==> file.Present? && now - file.mtime < ttl
    ensures r.request == NoRequest ==> r.file == file
    ensures r.request != NoRequest && response.status == 200 && |response.body| > 0 ==>
      r.file == Present(at, response.body)
    ensures r.request != NoRequest && response.status == 304 ==>
      && r.file.Present? && r.file.mtime == at
      && (file.Present? ==> r.file.content == file.content)
      && (file.Missing? ==> r.file.content == [])
    ensures response.status != 304 && (response.status != 200 || |response.body| == 0) ==> r.file == file
  {
    var request := PlanRequest(file, now, ttl);
    if request == NoRequest then Outcome(request, file)
    else Outcome(request, ApplyEffect(file, ResponseEffect(response), response.body, at))
  }

  /** `downloadData` with the library's fixed TTL of one day. */
  function DownloadData(file: SourceFile, now: int, response: Response, at: int): (r: Outcome)
    ensures r.request == NoRequest <==> file.Present? && file.mtime > now - 86400
    ensures r.request == Get <==> file.Missing?
    ensures r.request.ConditionalGet? ==> r.request.ifModifiedSince == file.mtime
    ensures r.request == NoRequest ==> r.file == file
  {
    Refresh(file, now, SourceTtl, response, at)
  }

  /** Once a copy is stale it stays stale as the clock advances. */
  lemma StalenessIsMonotone(file: SourceFile, now: int, later: int, ttl: int)
    requires now <= later
    requires PlanRequest(file, now, ttl) != NoRequest
    ensures PlanRequest(file, later, ttl) != NoRequest
  {
  }

  /**
    A write or a touch restarts the TTL clock: for `ttl` seconds after it no
    request is made. This is what keeps a 304 answer from causing a request
    on every construction.
  */
  lemma RefreshRestartsClock(file: SourceFile, now: int, ttl: int, response: Response, at: int, later: int)
    requires PlanRequest(file, now, ttl) != NoRequest
    requires ResponseEffect(response) != NoChange
    requires at <= later < at + ttl
    ensures PlanRequest(Refresh(file, now, ttl, response, at).file, later, ttl) == NoRequest
  {
  }
}
